=== FILE: README.md ===
# Runner game core in Dafny

A model of the logic of a browser endless-runner (`game.js`). The player
runs automatically. It double-jumps and ducks to avoid ground and air
obstacles. A normal spawner keeps a minimum gap between obstacles, and a
chaos spawner takes over in the last level. A scripted chaser cinematic
exists as a one-way state machine. The game moves between the waiting,
running, game-over and win states on key presses and collisions.

The global mutable state of the original is one immutable `Game` record.
Each event is a pure step function over it:

- `KeyDown`: the `keydown` listener.
- `KeyUp`: the `keyup` listener.
- `Tick`: one call of the animation-frame `loop`.

Clocks and randomness are parameters:

- `now` is the frame timestamp passed to `loop`.
- `clock` is a reading of `performance.now()`.
- `Draws` carries the `Math.random()` values a frame may consume, each a
  `Unit` in [0, 1).

Coordinates, speeds, times and the score are `real`. The high score is an
`int`, as `Math.floor` and `parseInt` produce.

Modules, one per component of the loop:

- `World`: canvas and ground constants, speed bounds, rectangles, `Clamp`.
- `Runner`: the player: jump, duck, stand, gravity with the ground clamp.
- `Track`: obstacles, the normal and chaos spawners, scrolling and cleanup.
- `Collision`: the per-obstacle collision predicate and the first-hit scan.
- `Cinematic`: the chaser state machine.
- `Game`: the game record, key handlers, start/reset, high score, frame step.
- `Session`: the game driven by any interleaving of events.
- `ResetHitbox`: the reset defect listed under Findings.

Behaviour of the code worth knowing:

- Quit (Q) and restart (R) return to the title from every state, the
  running one included. The secret key (W) wins from every state, the
  title screen included.
- A normal spawn attempt resets the spawn timer even when the candidate is
  dropped for being too close (`Game.Spawn`).
- The score threshold (200) switches on the last level and chaos spawning
  directly, and leaves the cinematic off. Chaos spawning depends on
  `inLastLevel` and `!cinematicActive`. `lastLevelChaos` is set but never
  read. `enterLastLevelCinematic` is defined twice; the later definition is
  the one in effect, and nothing calls it. So the cinematic is a standalone
  machine, and `Session.CinematicNeverStarts` proves no session reaches it.
- Ducking does not prevent jumping: a ducking player may jump. Releasing
  the duck key in mid-air snaps the player back onto the ground line
  (`Runner.Stand`).
- The reset behind Q and R clears the duck flag but leaves the hitbox
  height as it was (see Findings). `Game.KeyDown` and the `Session`
  members take the reset as a parameter, `ResetMode`. `AsWritten` is the
  original reset and `Corrected` restores the standing height. The game
  invariant `Game.Inv` holds under either mode. It requires a duck-height
  hitbox while ducking, but not the standing height while standing. The
  exact match of height and duck flag (`Runner.Posture`) is proved only
  for the corrected reset.

## Model

| member | source | states |
|---|---|---|
| World.Clamp | game.js:99 | the result lies in [a, b] when a <= b, equals v when v is already inside, and is the violated bound otherwise; the lower bound wins when the bounds are inverted |
| World.ClampIdempotent | game.js:99 | clamping twice is the same as clamping once |
| World.RectsOverlap | game.js:257-259 | for rectangles of positive size, they overlap exactly when their horizontal extents and their vertical extents both intersect in more than a point |
| World.OverlapSymmetric | game.js:257-259 | the overlap test does not depend on argument order |
| World.TouchingEdgesDoNotOverlap | game.js:257-259 | rectangles that only share a vertical or horizontal edge do not overlap |
| World.OverlapIffCommonPoint | game.js:257-259 | for rectangles of positive size, the test holds exactly when some point lies strictly inside both |
| Runner.Grounded | game.js:210-212 | the player counts as grounded exactly when its feet are strictly within 1px of the ground line |
| Runner.Jump | game.js:140-146 | with a jump left, the velocity becomes the jump power and the counter goes up by one; with none left nothing changes; the counter never passes the cap of 2; position, height and duck flag are untouched |
| Runner.Duck | game.js:147-155 | the player changes exactly when not ducking and within 1px of the ground; then it ducks at the duck height with the feet on the ground line; velocity and jump counter are kept |
| Runner.Stand | game.js:161-172 | the player changes exactly when ducking; then it stands at the original height with the feet on the ground line |
| Runner.DuckThenStand | game.js:147-172 | ducking then standing returns a standing player on the ground to exactly its former state |
| Runner.StandThenDuck | game.js:147-172 | standing then ducking returns a ducking player on the ground to exactly its former state |
| Runner.Fall | game.js:598-607 | velocity grows by gravity and position by the new velocity; the clamp fires exactly when the integrated feet reach or pass the ground line, and then puts the feet on it; otherwise the player is at the integrated position; feet never end below the ground; landing zeroes the velocity and restores both jumps; in the air the counter is kept; height and duck flag are untouched, so the player invariant and the posture are preserved |
| Runner.DoubleJumpScenario | game.js:139-146 | from the ground, two jump presses take effect (counter 1 then 2) and a third changes nothing |
| Track.DrawWidth | game.js:224 | `base + floor(draw * span)` lies in [base, base + span - 1] |
| Track.NewObstacle | game.js:225-228 | a spawned obstacle starts at x = 920; air obstacles float at y = 240 with height 36; ground obstacles are 48 tall and stand on the ground line |
| Track.NormalObstacle | game.js:222-228 | the normal candidate is air exactly when the draw is below 0.45, and its width is 28..55 |
| Track.ChaosObstacle | game.js:245-251 | the chaos obstacle is air exactly when the draw is below 0.55, and its width is 26..61 |
| Track.Rightmost | game.js:230-234 | the scan result is at least -9999, no obstacle lies to its right, and it is either the sentinel or some obstacle's x |
| Track.SpawnNormal | game.js:222-243 | either nothing changes or exactly the candidate is appended and the last-spawned x becomes 920; nothing changes exactly when some obstacle lies right of x = 700; a spawned obstacle is at least 220px right of every existing one |
| Track.SpawnChaos | game.js:245-254 | exactly one obstacle at x = 920 is appended after the unchanged existing ones |
| Track.BoundaryGapSpawns | game.js:236-241 | with the rightmost obstacle at x = 700 (a gap of exactly 220) the spawn goes ahead |
| Track.Move | game.js:573-576 | every obstacle moves left by the same distance and nothing else about it changes |
| Track.Scroll | game.js:573-578 | after the scroll and cleanup, an obstacle remains exactly when it is some original obstacle moved left by the given distance and its right edge is right of x = -200; the list does not grow |
| Track.Cleanup | game.js:577-578 | an obstacle is kept exactly when it was present and its right edge is right of x = -200; the result is no longer than the input; when all are on screen the list is unchanged |
| Track.CleanupAppend | game.js:577-578 | the filter works obstacle by obstacle in order: cleaning a concatenation is concatenating the cleaned parts, so order and repeats are kept |
| Collision.Exempt | game.js:265-271 | an overlap is forgiven a standing player only for a ground obstacle whose top, lowered by 6px, is still below the feet on screen, and an air obstacle only when the player ducks |
| Collision.Hits | game.js:263-275 | an obstacle hits exactly when the hitboxes overlap, an air obstacle meets a player who is not ducking, and a ground obstacle meets feet at or below its top plus 6px |
| Collision.FirstHit | game.js:261-279 | the scan finds nothing exactly when no obstacle hits; otherwise it names a hitting obstacle with no hitting obstacle before it |
| Collision.DuckingClearsAir | game.js:268-269 | a ducking player is never stopped by an air obstacle |
| Collision.HighFeetClearGround | game.js:270-271 | a player whose feet are above a ground obstacle's top plus 6px is never stopped by it |
| Cinematic.Next | game.js:86 | each non-final state's successor is one step further along the chain; done is final |
| Cinematic.Update | game.js:308-349 | inactive: nothing changes; active: the state stays or advances one step on its own trigger (30s of following, chaser past x = 960, 5s after passing, big chaser past x = -120); following moves the chaser at its speed and ramps the world speed by 60 px/sec per second within [280, 1400], and entering the pass sets the pass speed to three times the world speed; passing moves the chaser at its pass speed and records the time it passed; after 5s the chaser is put at x = 960 with return speed -1.2 times the world speed and the big chaser at x = 1140 with speed -1.7 times it; returning moves both chasers at their speeds; only the final step clears the active flag, sets chaos mode and multiplies the speed by 1.2 within the bounds; a speed in range never drops for a non-negative frame time; nothing else moves: the follow start and the chaser's own speed never change, the pass time changes only when passing, the pass speed only when following, and the return speeds only when the return starts |
| Cinematic.Run | game.js:308-349 | over any frames the state only moves forward, at most one step per frame; an inactive machine does not move; a machine that stops being active has reached done with chaos mode on |
| Cinematic.TraceInOrder | game.js:308-349 | the states seen over any frames start at the initial state, end at the final one, and each repeats or is the successor of the one before: no skipping, no going back |
| Game.Initial | game.js:18-88 | the page-load game is waiting, carries the stored high score and satisfies the invariant |
| Game.SaveHighScore | game.js:214-219 | the high score becomes the larger of itself and the floor of the score; nothing else changes |
| Game.StartGame | game.js:178-196 | a run starts with score 0, base speed, no obstacles, a reset spawn timer, last-level flags off and the chaser idle; the player and the high score are kept |
| Game.ResetToTitle | game.js:198-207 | the state becomes waiting with the player at rest on the ground, standing at the standing height, both jumps available; the high score and the rest of the game are kept |
| Game.ResetToTitleAsWritten | game.js:198-207 | as the original writes it: the duck flag is cleared, the feet are put on the ground and the jumps restored, but the hitbox height is left as it was; the player invariant is preserved |
| Game.Reset | game.js:198-207 | either reset reaches waiting with a non-ducking player at rest on the ground, keeps everything but the player and preserves the player invariant; the corrected one also restores the standing height |
| Game.KeyDown | game.js:102-159 | repeats are ignored; Q and R are exactly the selected reset and W is exactly the move to win with the score saved, from any state; otherwise only waiting to running can happen; the title screen ignores every key but the jump keys, and game over and win ignore them all; while running a jump key is exactly `Runner.Jump` (so a press with both jumps used does nothing), the down arrow exactly `Runner.Duck`, and any other key nothing; the high score never drops and the invariant is preserved with either reset; the posture is preserved by every key but Q and R, and by those too with the corrected reset |
| Game.KeyUp | game.js:161-175 | only releasing the down arrow while running has an effect, and that effect is exactly `Runner.Stand` on the player: a ducking player stands with the feet on the ground line, velocity and jumps kept, and a standing one is unchanged; the invariant and the posture are preserved |
| Game.EnterLastLevelCinematic | game.js:295-306 | once in the last level nothing changes; otherwise the follow phase starts with the chaser 300px behind the player at 95% of world speed and the spawn timer reset; only the scene and the timer change |
| Game.CheckCollisions | game.js:261-279 | a hit is reported exactly when some obstacle hits the player; a hit moves to game over and saves the high score; otherwise nothing changes |
| Game.Spawn | game.js:580-596 | at most one obstacle is appended at x = 920 after the existing ones; the active cinematic pauses spawning; before the last level an attempt every 1000ms restarts the timer, and it appends exactly when no obstacle lies right of x = 700, so the 220px gap is kept; in the last level without the cinematic, a spawn happens exactly when the timer reaches the random 400..1200ms interval, which restarts it; all obstacles stay on screen |
| Game.Accelerate | game.js:571 | the loop's speed-up lands in [280, 1400], never lowers a speed in range for a non-negative frame time, and below the cap adds 10 px/sec per second |
| Game.LevelCheck | game.js:638-644 | at score 200 outside the last level, the last level and chaos mode switch on with the cinematic off and the chaser state unchanged; otherwise nothing changes |
| Game.Advance | game.js:569-670 | before the collision check a running frame changes only player, speed, obstacles, spawn timer, scene and score: the player is the gravity step over the frame time, the score grows by dt/100, without the cinematic the speed is the loop's speed-up; the obstacles are scrolled left by `Travel(speed, dt)` (speed times dt/1000, game.js:575) and cleaned, then lane and spawn timer are exactly `Game.Spawn` over the timer advanced by dt, so the scrolled ones are followed by at most one spawn; the score threshold switches on the last level, and the invariant is preserved |
| Game.RunningFrame | game.js:569-684 | a running frame ends running or in game over; game over (with the cinematic off) happens exactly when an obstacle hits the player; the cinematic never switches on; the player is the gravity step over the frame time, the score grows by dt/100, without the cinematic the speed is the loop's speed-up, and lane and spawn timer are exactly `Game.Spawn` over the scrolled and cleaned obstacles with the timer advanced by dt; the high score never drops; the invariant is preserved and height and duck flag are untouched |
| Game.Tick | game.js:522-567 | outside a run only the timestamp changes; the state stays or moves from running to game over; a running frame applies gravity and adds to the score over `Game.FrameTime`, the time since the previous timestamp, zero on the first frame (game.js:523-524); the high score never drops; the cinematic never switches on; the invariant is preserved and height and duck flag are untouched |
| Session.Apply | game.js:101-207 | any single event makes only the allowed state moves (to waiting, to win, waiting to running, running to game over), never lowers the high score and preserves the invariant with either reset; the posture survives every event but a Q or R press, and those too with the corrected reset |
| Session.Play | game.js:101-175 | over any interleaving of key presses, key releases and frames, with either reset, the high score never decreases and the invariant holds: a jump counter that never passes 2 (by the handlers' contracts only a successful jump press raises it, by one, and only landing or a reset clears it), feet never below the ground line, a duck-height hitbox while ducking, speed in bounds, obstacles on screen; with the corrected reset the hitbox height matches the duck flag throughout a session that starts with it matching |
| Session.CinematicNeverStarts | game.js:638-648 | over any interleaving of events an idle cinematic stays idle and inactive, score threshold included |
| Session.FromPageLoad | game.js:638-690 | from the page load, with either reset, every reachable game satisfies the invariant, keeps at least the stored high score and never runs the cinematic; with the corrected reset the height also matches the duck flag |
| ResetHitbox.ResetAsWrittenKeepsDuckHitbox | game.js:198-207 | with the original reset, a run ended while ducking restarts with a non-ducking player at duck height: the invariant holds but the posture does not, and an air obstacle right above does not hit it |
| ResetHitbox.ResetRestoresStandingHitbox | game.js:198-207 | with the corrected reset, the same restart gives a standing full-height player with invariant and posture, whom that air obstacle hits |

## Left out

- Canvas drawing (start screen, HUD, stickman, rocks, missiles, chasers, ground stripes) is rendering only.
- Audio playback is a fire-and-forget side effect. The `alert` on quit and `preventDefault` calls are also left out.
- `localStorage` reads and writes are I/O. The stored high score is the parameter of `Game.Initial`; `parseInt` is not modelled.
- `requestAnimationFrame`, `performance.now()` and `Math.random()` are scheduling, clock and randomness. They appear as the `now`, `clock` and `Draws` parameters.
- The cosmetic state is not modelled: `fakeProgress`, the message rotation (`currentMessage`, `nextMsgAt` and the draws they consume) and `stripeOffset`.
- Floating-point rounding is not modelled. Arithmetic is exact on `real`, so no claim is made about IEEE behaviour of the `speed * dt / 1000` integrations.
- The first `enterLastLevelCinematic` definition (game.js:282-293) is not modelled: the later one replaces it.
- `passSpeed` and `returnSpeed`: in the original these are added to the chaser object only when they are first set. Here they are fields that start at 0. They are only read in the states that set them first.
- Game.ResetToTitle: this is the corrected reset (see Findings). The original behaviour is `Game.ResetToTitleAsWritten`, which `Game.KeyDown` uses under `ResetMode.AsWritten`.
- Game.KeyDown: the posture (height matching the duck flag) is promised after a Q or R press only under the corrected reset; the original reset can break it, as `ResetHitbox.ResetAsWrittenKeepsDuckHitbox` shows.
- Session.Apply: as for `Game.KeyDown`, the posture is promised after a Q or R press only under the corrected reset.
- Session.Play: the posture is promised for the corrected reset only; under the original reset a session can reach a standing player at duck height.
- Session.FromPageLoad: the posture is promised only under the corrected reset; the invariant, high score and idle cinematic hold under both.

## Findings

| source | as written | input that shows it | evidently intended | confidence | as-written member | corrected member |
|---|---|---|---|---|---|---|
| game.js:198-207 | `resetToTitle` clears `ducking` and puts the feet on the ground, but leaves `height` at the duck height | duck, run into a ground obstacle (the key release is ignored outside a run), press R, then Space: the new run's player is not ducking but has the 40px duck hitbox, and an air obstacle right above its column does not touch it | restore `height` to the standing height along with clearing `ducking` | medium, not executed | Game.ResetToTitleAsWritten, exhibited by ResetHitbox.ResetAsWrittenKeepsDuckHitbox | Game.ResetToTitle, proved by ResetHitbox.ResetRestoresStandingHitbox |

=== FILE: cinematic.dfy ===
/** The chaser cinematic: a one-way machine idle -> follow -> pass ->
    passed -> returning -> done that moves two scripted chasers and ramps
    the world speed. The chasers are not obstacles and never collide. */
module Cinematic {
  import opened World
  import opened Runner

  datatype ChaserState = Idle | Follow | Pass | Passed | Returning | Done

  /** Position of a state along the one-way chain. */
  function Rank(s: ChaserState): nat {
    match s
    case Idle => 0
    case Follow => 1
    case Pass => 2
    case Passed => 3
    case Returning => 4
    case Done => 5
  }

  /** The next state along the chain; `Done` is the last. */
  function Next(s: ChaserState): (r: ChaserState)
    ensures s != Done ==> Rank(r) == Rank(s) + 1
    ensures s == Done ==> r == Done
  {
    match s
    case Idle => Follow
    case Follow => Pass
    case Pass => Passed
    case Passed => Returning
    case Returning => Done
    case Done => Done
  }

  /** A scripted chaser. `passSpeed` and `returnSpeed` are only read in the
      states that set them first. */
  datatype Chaser = Chaser(x: real, y: real, w: real, h: real, speed: real, passSpeed: real, returnSpeed: real)

  /** The last-level flags and the cinematic's own state. */
  datatype Scene = Scene(
    inLastLevel: bool,
    cinematicActive: bool,
    lastLevelChaos: bool,
    state: ChaserState,
    chaser: Chaser,
    bigChaser: Chaser,
    followStart: real,
    passedAt: real)

  /** Where the small chaser waits, 300px behind the player. */
  const ChaserHomeX: real := ScreenX - 300.0
  /** Where the big chaser is parked until it is needed. */
  const BigChaserParkedX: real := 99999.0

  const InitialScene: Scene := Scene(
    false, false, false, Idle,
    Chaser(ChaserHomeX, GroundY - 70.0, 44.0, 70.0, 0.0, 0.0, 0.0),
    Chaser(BigChaserParkedX, GroundY - 100.0, 80.0, 100.0, 0.0, 0.0, 0.0),
    0.0, 0.0)

  /** The cinematic's output for one frame: the scene and the world speed. */
  datatype Step = Step(scene: Scene, speed: real)

  /** `updateCinematic(dt, now)`; `clock` is the `performance.now()` read
      inside the pass and passed states. At most one transition per frame,
      always forward, each on its own trigger: 30s after the follow began;
      the chaser beyond the right edge; 5s after it passed; the big chaser
      beyond the left edge. */
  function Update(s: Scene, speed: real, dt: real, now: real, clock: real): (r: Step)
    ensures !s.cinematicActive ==> r == Step(s, speed)
    ensures r.scene.state == s.state || r.scene.state == Next(s.state)
    ensures r.scene.state != s.state ==> s.cinematicActive && s.state != Idle && s.state != Done
    ensures r.scene.inLastLevel == s.inLastLevel
    ensures r.scene.cinematicActive ==> s.cinematicActive
    ensures r.scene.cinematicActive != s.cinematicActive ==> r.scene.state == Done && r.scene.lastLevelChaos
    ensures s.state != Done && r.scene.state == Done ==> !r.scene.cinematicActive && r.scene.lastLevelChaos && SpeedInRange(r.speed)
    ensures SpeedInRange(speed) ==> SpeedInRange(r.speed)
    ensures s.cinematicActive && s.state == Follow ==> (r.scene.state == Pass <==> now - s.followStart >= 30000.0)
    ensures s.cinematicActive && s.state == Pass ==> (r.scene.state == Passed <==> r.scene.chaser.x > CanvasWidth + 60.0)
    ensures s.cinematicActive && s.state == Passed ==> (r.scene.state == Returning <==> clock - s.passedAt >= 5000.0)
    ensures s.cinematicActive && s.state == Returning ==>
              (r.scene.state == Done <==> r.scene.bigChaser.x + r.scene.bigChaser.w < -120.0)
    ensures SpeedInRange(speed) && dt >= 0.0 ==> r.speed >= speed
    ensures r.scene.followStart == s.followStart && r.scene.chaser.speed == s.chaser.speed
    ensures s.state != Pass ==> r.scene.passedAt == s.passedAt
    ensures s.state != Follow ==> r.scene.chaser.passSpeed == s.chaser.passSpeed
    ensures s.state != Passed ==>
              r.scene.chaser.returnSpeed == s.chaser.returnSpeed && r.scene.bigChaser.speed == s.bigChaser.speed
    ensures s.cinematicActive && s.state == Follow ==>
              && r.scene.chaser.x == s.chaser.x + s.chaser.speed * dt / 1000.0
              && r.speed == Clamp(speed + 60.0 * dt / 1000.0, BaseSpeed, MaxSpeed)
              && (r.scene.state == Pass ==> r.scene.chaser.passSpeed == r.speed * 3.0)
    ensures s.cinematicActive && s.state == Pass ==>
              r.scene.chaser.x == s.chaser.x + s.chaser.passSpeed * dt / 1000.0 && r.speed == speed
              && (r.scene.state == Passed ==> r.scene.passedAt == clock)
    ensures s.cinematicActive && s.state == Passed ==>
              r.speed == speed &&
              if r.scene.state == Returning
              then && r.scene.chaser.x == CanvasWidth + 60.0 && r.scene.chaser.returnSpeed == -(speed * 1.2)
                   && r.scene.bigChaser.x == CanvasWidth + 240.0 && r.scene.bigChaser.speed == -(speed * 1.7)
              else r.scene == s
    ensures s.cinematicActive && s.state == Returning ==>
              && r.scene.chaser.x == s.chaser.x + s.chaser.returnSpeed * dt / 1000.0
              && r.scene.bigChaser.x == s.bigChaser.x + s.bigChaser.speed * dt / 1000.0
              && r.speed == (if r.scene.state == Done then Clamp(speed * 1.2, BaseSpeed, MaxSpeed) else speed)
  {
    if !s.cinematicActive then Step(s, speed)
    else match s.state
      case Follow =>
        var c := s.chaser.(x := s.chaser.x + s.chaser.speed * dt / 1000.0);
        var sp := Clamp(speed + 60.0 * dt / 1000.0, BaseSpeed, MaxSpeed);
        if now - s.followStart >= 30000.0 then
          Step(s.(state := Pass, chaser := c.(passSpeed := sp * 3.0)), sp)
        else
          Step(s.(chaser := c), sp)
      case Pass =>
        var c := s.chaser.(x := s.chaser.x + s.chaser.passSpeed * dt / 1000.0);
        if c.x > CanvasWidth + 60.0 then
          Step(s.(state := Passed, chaser := c, passedAt := clock), speed)
        else
          Step(s.(chaser := c), speed)
      case Passed =>
        if clock - s.passedAt >= 5000.0 then
          Step(s.(state := Returning,
                  chaser := s.chaser.(x := CanvasWidth + 60.0, returnSpeed := -(speed * 1.2)),
                  bigChaser := s.bigChaser.(x := CanvasWidth + 240.0, speed := -(speed * 1.7))),
               speed)
        else
          Step(s, speed)
      case Returning =>
        var c := s.chaser.(x := s.chaser.x + s.chaser.returnSpeed * dt / 1000.0);
        var b := s.bigChaser.(x := s.bigChaser.x + s.bigChaser.speed * dt / 1000.0);
        if b.x + b.w < -120.0 then
          Step(s.(state := Done, chaser := c, bigChaser := b, cinematicActive := false, lastLevelChaos := true),
               Clamp(speed * 1.2, BaseSpeed, MaxSpeed))
        else
          Step(s.(chaser := c, bigChaser := b), speed)
      case Idle => Step(s, speed)
      case Done => Step(s, speed)
  }

  /** The inputs of one frame. */
  datatype Frame = Frame(dt: real, now: real, clock: real)

  /** The cinematic driven through a sequence of frames. */
  function Run(s: Scene, speed: real, frames: seq<Frame>): (r: Step)
    ensures Rank(s.state) <= Rank(r.scene.state) <= Rank(s.state) + |frames|
    ensures !s.cinematicActive ==> r == Step(s, speed)
    ensures r.scene.inLastLevel == s.inLastLevel
    ensures s.cinematicActive && !r.scene.cinematicActive ==> r.scene.state == Done && r.scene.lastLevelChaos
    ensures SpeedInRange(speed) ==> SpeedInRange(r.speed)
    decreases |frames|
  {
    if |frames| == 0 then Step(s, speed)
    else
      var f := frames[0];
      var st := Update(s, speed, f.dt, f.now, f.clock);
      Run(st.scene, st.speed, frames[1..])
  }

  /** The chaser states seen before the first frame and after each frame. */
  function Trace(s: Scene, speed: real, frames: seq<Frame>): (t: seq<ChaserState>)
    decreases |frames|
  {
    if |frames| == 0 then [s.state]
    else
      var f := frames[0];
      var st := Update(s, speed, f.dt, f.now, f.clock);
      [s.state] + Trace(st.scene, st.speed, frames[1..])
  }

  /** Consecutive states either repeat or advance exactly one step. */
  predicate InOrder(t: seq<ChaserState>) {
    forall i :: 0 <= i < |t| - 1 ==> t[i + 1] == t[i] || t[i + 1] == Next(t[i])
  }

  /** Whatever the frames, the cinematic visits its states in chain order,
      never skipping one and never going back. */
  lemma {:induction false} TraceInOrder(s: Scene, speed: real, frames: seq<Frame>)
    ensures var t := Trace(s, speed, frames);
            |t| == |frames| + 1 && t[0] == s.state && t[|frames|] == Run(s, speed, frames).scene.state && InOrder(t)
    decreases |frames|
  {
    if |frames| > 0 {
      var f := frames[0];
      var st := Update(s, speed, f.dt, f.now, f.clock);
      TraceInOrder(st.scene, st.speed, frames[1..]);
      var rest := Trace(st.scene, st.speed, frames[1..]);
      var t := [s.state] + rest;
      assert Trace(s, speed, frames) == t;
      forall i | 0 <= i < |t| - 1
        ensures t[i + 1] == t[i] || t[i + 1] == Next(t[i])
      {
        if i > 0 {
          assert t[i] == rest[i - 1] && t[i + 1] == rest[i];
        }
      }
    }
  }
}

=== FILE: collision.dfy ===
/** The collision predicate between the player's hitbox and one obstacle,
    and the in-order scan that finds the first obstacle that ends the run. */
module Collision {
  import opened World
  import opened Runner
  import opened Track

  /** A ground obstacle is cleared when the feet are above its top edge
      plus this many pixels. */
  const FeetTolerance: real := 6.0

  /** The two ways an overlap is forgiven: ducking under an air obstacle,
      or feet above a ground obstacle's top plus the tolerance. A standing
      player is only ever forgiven a ground obstacle it is clearing. */
  function Exempt(p: Player, o: Obstacle): (r: bool)
    ensures r && !p.ducking ==> o.kind == Ground && Feet(p) < o.y + FeetTolerance
    ensures r && o.kind == Air ==> p.ducking
  {
    || (o.kind == Air && p.ducking)
    || (o.kind == Ground && Feet(p) < o.y + FeetTolerance)
  }

  /** The obstacle ends the run: the hitboxes overlap, an air obstacle meets
      a standing player, and a ground obstacle meets feet that are not
      clear of its top. */
  function Hits(p: Player, o: Obstacle): (r: bool)
    ensures r <==> && RectsOverlap(Hitbox(p), Bounds(o))
                   && (o.kind == Air ==> !p.ducking)
                   && (o.kind == Ground ==> Feet(p) >= o.y + FeetTolerance)
  {
    RectsOverlap(Hitbox(p), Bounds(o)) && !Exempt(p, o)
  }

  datatype Scan = NoHit | HitAt(index: nat)

  /** The loop of `checkCollisions`: visit the obstacles in order and stop
      at the first one that hits. */
  function FirstHit(p: Player, obs: seq<Obstacle>): (r: Scan)
    ensures r.NoHit? <==> forall i :: 0 <= i < |obs| ==> !Hits(p, obs[i])
    ensures r.HitAt? ==> r.index < |obs| && Hits(p, obs[r.index])
    ensures r.HitAt? ==> forall i :: 0 <= i < r.index ==> !Hits(p, obs[i])
  {
    if |obs| == 0 then NoHit
    else if Hits(p, obs[0]) then HitAt(0)
    else match FirstHit(p, obs[1..])
      case NoHit => NoHit
      case HitAt(k) => HitAt(k + 1)
  }

  /** A ducking player is never stopped by an air obstacle, whatever the
      hitboxes. */
  lemma DuckingClearsAir(p: Player, o: Obstacle)
    requires p.ducking && o.kind == Air
    ensures !Hits(p, o)
  {
  }

  /** A player whose feet are above a ground obstacle's top plus the
      tolerance is never stopped by it. */
  lemma HighFeetClearGround(p: Player, o: Obstacle)
    requires o.kind == Ground && Feet(p) < o.y + FeetTolerance
    ensures !Hits(p, o)
  {
  }
}

=== FILE: game.dfy ===
/** The game record and its step functions: key presses and releases,
    start and reset, the high score, the collision check, the unused
    cinematic entry, and one animation frame of the main loop. */
module Game {
  import opened World
  import opened Runner
  import opened Track
  import opened Collision
  import opened Cinematic

  datatype GameState = Waiting | Running | GameOver | Win

  /** The key codes the game reacts to; every other code is `OtherKey`. */
  datatype Key = KeyQ | KeyW | KeyR | Space | ArrowUp | ArrowDown | OtherKey

  /** Normal mode tries to spawn once per this many milliseconds. */
  const SpawnIntervalMs: real := 1000.0
  /** The score at which the loop switches to the last level. */
  const LastLevelScore: real := 200.0

  /** The loop's gentle speed-up: 10 px/sec per second, kept within the
      speed bounds. */
  function Accelerate(speed: real, dt: real): (r: real)
    ensures SpeedInRange(r)
    ensures SpeedInRange(speed) && dt >= 0.0 ==> r >= speed
    ensures speed + dt / 100.0 < MaxSpeed && SpeedInRange(speed) && dt >= 0.0 ==> r == speed + dt / 100.0
  {
    Clamp(speed + 10.0 * dt / 1000.0, BaseSpeed, MaxSpeed)
  }

  /** The pixels covered in `dt` milliseconds at `speed` px/sec. */
  function Travel(speed: real, dt: real): (px: real)
    ensures speed >= 0.0 && dt >= 0.0 ==> px >= 0.0
  {
    speed * dt / 1000.0
  }

  datatype Game = Game(
    state: GameState,
    lastTime: real,
    player: Player,
    speed: real,
    lane: Lane,
    spawnElapsed: real,
    scene: Scene,
    score: real,
    highScore: int)

  /** The random draws one frame may consume. */
  datatype Draws = Draws(kind: Unit, width: Unit, interval: Unit)

  /** What every reachable game of the original keeps true. */
  predicate Inv(g: Game) {
    && PlayerInv(g.player)
    && SpeedInRange(g.speed)
    && (g.scene.cinematicActive ==> g.scene.inLastLevel)
    && (forall o :: o in g.lane.obstacles ==> OnScreen(o))
  }

  /** The game as the page loads; the stored high score is a parameter. */
  function Initial(storedHighScore: int): (g: Game)
    ensures g.state == Waiting && g.highScore == storedHighScore
    ensures Inv(g)
  {
    Game(Waiting, 0.0, InitialPlayer, BaseSpeed, EmptyLane, 0.0, InitialScene, 0.0, storedHighScore)
  }

  /** The high score becomes the larger of itself and the floor of the
      score; nothing else changes. */
  function SaveHighScore(g: Game): (r: Game)
    ensures r.highScore >= g.highScore && r.highScore >= g.score.Floor
    ensures r.highScore == g.highScore || r.highScore == g.score.Floor
    ensures r == g.(highScore := r.highScore)
  {
    if g.score.Floor > g.highScore then g.(highScore := g.score.Floor) else g
  }

  /** A fresh run: score, speed, obstacles, spawn timer and last-level
      flags are reset and the chaser goes back to idle. The player and the
      high score are left as they are. */
  function StartGame(g: Game, clock: real): (r: Game)
    ensures r.state == Running && r.score == 0.0 && r.speed == BaseSpeed && r.lastTime == clock
    ensures r.lane.obstacles == [] && r.lane.lastObstacleX == NoObstacleX && r.spawnElapsed == 0.0
    ensures r.scene.state == Idle && !r.scene.inLastLevel && !r.scene.cinematicActive && !r.scene.lastLevelChaos
    ensures r.player == g.player && r.highScore == g.highScore
  {
    var scene := g.scene.(
      inLastLevel := false, cinematicActive := false, lastLevelChaos := false, state := Idle,
      chaser := g.scene.chaser.(x := ChaserHomeX),
      bigChaser := g.scene.bigChaser.(x := BigChaserParkedX));
    g.(state := Running, lastTime := clock, speed := BaseSpeed, lane := EmptyLane,
       spawnElapsed := 0.0, scene := scene, score := 0.0)
  }

  /** Back to the title screen with the player standing at rest on the
      ground; the high score and the rest of the run are kept. This is the
      corrected reset: it also restores the standing height, which the
      original leaves at the duck height (see `ResetToTitleAsWritten`). */
  function ResetToTitle(g: Game): (r: Game)
    ensures r.state == Waiting && r.highScore == g.highScore
    ensures PlayerInv(r.player) && Posture(r.player) && !r.player.ducking && Feet(r.player) == GroundY
    ensures r.player.vy == 0.0 && r.player.jumpsUsed == 0
    ensures r == g.(state := Waiting, player := r.player)
  {
    var p := g.player.(height := OriginalHeight);
    g.(state := Waiting, player := p.(y := GroundY - p.height, vy := 0.0, jumpsUsed := 0, ducking := false))
  }

  /** `resetToTitle` as the original writes it: the duck flag is cleared
      but the hitbox height is not restored. */
  function ResetToTitleAsWritten(g: Game): (r: Game)
    ensures r.state == Waiting && r.highScore == g.highScore
    ensures !r.player.ducking && Feet(r.player) == GroundY && r.player.height == g.player.height
    ensures r.player.vy == 0.0 && r.player.jumpsUsed == 0
    ensures r == g.(state := Waiting, player := r.player)
    ensures PlayerInv(g.player) ==> PlayerInv(r.player)
  {
    var p := g.player;
    g.(state := Waiting, player := p.(y := GroundY - p.height, vy := 0.0, jumpsUsed := 0, ducking := false))
  }

  /** Which reset the quit and restart keys perform: the original's, or the
      corrected one that also restores the standing height. */
  datatype ResetMode = AsWritten | Corrected

  function Reset(g: Game, mode: ResetMode): (r: Game)
    ensures r.state == Waiting && r.highScore == g.highScore
    ensures !r.player.ducking && Feet(r.player) == GroundY && r.player.jumpsUsed == 0
    ensures r == g.(state := Waiting, player := r.player)
    ensures PlayerInv(g.player) ==> PlayerInv(r.player)
    ensures mode == Corrected ==> Posture(r.player)
    ensures Posture(g.player) && !g.player.ducking ==> Posture(r.player)
  {
    match mode
    case AsWritten => ResetToTitleAsWritten(g)
    case Corrected => ResetToTitle(g)
  }

  /** Quit, secret win and restart act in every state. */
  predicate Universal(key: Key) {
    key == KeyQ || key == KeyW || key == KeyR
  }

  predicate JumpKey(key: Key) {
    key == Space || key == ArrowUp
  }

  /** The `keydown` handler. Auto-repeated presses are ignored. Quit and
      restart go to the title, the secret key wins at once; otherwise the
      jump key starts a run from the title screen, and while running it
      jumps and the down arrow ducks. Game over and win ignore all other
      keys. `mode` selects the reset behind quit and restart. */
  function KeyDown(g: Game, key: Key, repeat: bool, clock: real, mode: ResetMode): (r: Game)
    ensures repeat ==> r == g
    ensures r.highScore >= g.highScore
    ensures Inv(g) ==> Inv(r)
    ensures Posture(g.player) && (mode == Corrected || !(key == KeyQ || key == KeyR)) ==> Posture(r.player)
    ensures !repeat && (key == KeyQ || key == KeyR) ==> r.state == Waiting && r.highScore == g.highScore
    ensures !repeat && key == KeyW ==> r.state == Win && r.highScore >= g.score.Floor
    ensures !repeat && g.state == Waiting && JumpKey(key) ==>
              r.state == Running && r.score == 0.0 && r.lane.obstacles == [] && r.scene.state == Idle
    ensures !Universal(key) ==> r.state == g.state || (g.state == Waiting && r.state == Running)
    ensures !Universal(key) && (g.state == GameOver || g.state == Win) ==> r == g
    ensures !Universal(key) && g.state == Waiting && !JumpKey(key) ==> r == g
    ensures !repeat && (key == KeyQ || key == KeyR) ==> r == Reset(g, mode)
    ensures !repeat && key == KeyW ==> r == SaveHighScore(g.(state := Win))
    ensures !repeat && g.state == Running && JumpKey(key) ==> r.player == Jump(g.player)
    ensures !repeat && g.state == Running && key == ArrowDown ==> r.player == Duck(g.player)
    ensures !repeat && g.state == Running && !Universal(key) && !JumpKey(key) && key != ArrowDown ==> r == g
    ensures !Universal(key) && g.state == Running ==> r == g.(player := r.player)
    ensures !repeat && g.state == Running && JumpKey(key) && g.player.jumpsUsed < MaxJumps ==>
              r.player.vy == JumpPower && r.player.jumpsUsed == g.player.jumpsUsed + 1
    ensures !repeat && g.state == Running && key == ArrowDown && !g.player.ducking && Grounded(g.player) ==>
              r.player.ducking && Feet(r.player) == GroundY
  {
    if repeat then g
    else if key == KeyQ then Reset(g, mode)
    else if key == KeyW then SaveHighScore(g.(state := Win))
    else if key == KeyR then Reset(g, mode)
    else if g.state == Waiting then
      if JumpKey(key) then StartGame(g, clock) else g
    else if g.state == Running then
      var p1 := if JumpKey(key) then Jump(g.player) else g.player;
      var p2 := if key == ArrowDown then Duck(p1) else p1;
      g.(player := p2)
    else g
  }

  /** The `keyup` handler: releasing the down arrow while running stands a
      ducking player up. */
  function KeyUp(g: Game, key: Key): (r: Game)
    ensures r == g.(player := r.player)
    ensures Inv(g) ==> Inv(r)
    ensures Posture(g.player) ==> Posture(r.player)
    ensures !(g.state == Running && key == ArrowDown) ==> r == g
    ensures g.state == Running && key == ArrowDown ==> r.player == Stand(g.player)
    ensures g.state == Running && key == ArrowDown && g.player.ducking ==>
              !r.player.ducking && r.player.height == OriginalHeight && Feet(r.player) == GroundY
  {
    if g.state == Running && key == ArrowDown then g.(player := Stand(g.player)) else g
  }

  /** `enterLastLevelCinematic` (the later of its two definitions, which is
      the one in effect): once only, start the follow phase with the chaser
      behind the player at 95% of the world speed, and pause spawning.
      Nothing in the main loop calls it. */
  function EnterLastLevelCinematic(g: Game, clock: real): (r: Game)
    ensures g.scene.inLastLevel ==> r == g
    ensures !g.scene.inLastLevel ==>
              && r.scene.cinematicActive && r.scene.state == Follow
              && r.scene.chaser.x == ChaserHomeX && r.scene.chaser.speed == g.speed * 0.95
              && r.scene.followStart == clock && r.spawnElapsed == 0.0
    ensures r.scene.inLastLevel
    ensures r == g.(scene := r.scene, spawnElapsed := r.spawnElapsed)
    ensures Inv(g) ==> Inv(r)
  {
    if g.scene.inLastLevel then g
    else
      var c := g.scene.chaser;
      var scene := g.scene.(
        inLastLevel := true, cinematicActive := true, state := Follow,
        chaser := c.(x := ChaserHomeX, y := GroundY - c.h, speed := g.speed * 0.95),
        followStart := clock);
      g.(scene := scene, spawnElapsed := 0.0)
  }

  datatype Checked = Checked(hit: bool, game: Game)

  /** `checkCollisions`: a hit is reported exactly when some obstacle
      overlaps the player without an exemption; it ends the run and saves
      the high score. Without a hit nothing changes. */
  function CheckCollisions(g: Game): (r: Checked)
    ensures r.hit <==> exists i :: 0 <= i < |g.lane.obstacles| && Hits(g.player, g.lane.obstacles[i])
    ensures r.hit ==> r.game == SaveHighScore(g.(state := GameOver))
    ensures !r.hit ==> r.game == g
  {
    match FirstHit(g.player, g.lane.obstacles)
    case NoHit => Checked(false, g)
    case HitAt(_) => Checked(true, SaveHighScore(g.(state := GameOver)))
  }

  datatype Spawned = Spawned(lane: Lane, elapsed: real)

  /** The spawn part of a running frame, given the spawn timer already
      advanced by this frame. Before the last level: a normal spawn attempt
      every second, and the timer restarts even when the attempt is
      skipped. In the last level: a chaos spawn after a random 400..1200ms,
      paused while the cinematic is active. */
  function Spawn(lane: Lane, elapsed: real, scene: Scene, d: Draws): (r: Spawned)
    ensures |lane.obstacles| <= |r.lane.obstacles| <= |lane.obstacles| + 1
    ensures r.lane.obstacles[..|lane.obstacles|] == lane.obstacles
    ensures |r.lane.obstacles| > |lane.obstacles| ==> r.lane.obstacles[|lane.obstacles|].x == SpawnX
    ensures scene.inLastLevel && scene.cinematicActive ==> r == Spawned(lane, elapsed)
    ensures !scene.inLastLevel && elapsed >= SpawnIntervalMs ==> r.elapsed == 0.0
    ensures !scene.inLastLevel && elapsed < SpawnIntervalMs ==> r == Spawned(lane, elapsed)
    ensures !scene.inLastLevel && |r.lane.obstacles| > |lane.obstacles| ==>
              forall i :: 0 <= i < |lane.obstacles| ==> SpawnX - lane.obstacles[i].x >= NormalMinGap
    ensures !scene.inLastLevel && elapsed >= SpawnIntervalMs ==>
              (|r.lane.obstacles| == |lane.obstacles| + 1 <==>
                 forall i :: 0 <= i < |lane.obstacles| ==> lane.obstacles[i].x <= SpawnX - NormalMinGap)
    ensures scene.inLastLevel && !scene.cinematicActive ==>
              if elapsed >= d.interval * 800.0 + 400.0
              then |r.lane.obstacles| == |lane.obstacles| + 1 && r.elapsed == 0.0
              else r == Spawned(lane, elapsed)
    ensures (forall o :: o in lane.obstacles ==> OnScreen(o)) ==> forall o :: o in r.lane.obstacles ==> OnScreen(o)
  {
    if !scene.inLastLevel then
      if elapsed >= SpawnIntervalMs then Spawned(SpawnNormal(lane, d.kind, d.width), 0.0)
      else Spawned(lane, elapsed)
    else if !scene.cinematicActive then
      if elapsed >= d.interval * 800.0 + 400.0 then Spawned(SpawnChaos(lane, d.kind, d.width), 0.0)
      else Spawned(lane, elapsed)
    else
      Spawned(lane, elapsed)
  }

  /** The score threshold of the main loop: the last level and chaos mode
      are switched on directly and the cinematic is left off. */
  function LevelCheck(scene: Scene, score: real): (r: Scene)
    ensures !scene.inLastLevel && score >= LastLevelScore ==>
              r.inLastLevel && r.lastLevelChaos && !r.cinematicActive && r.state == scene.state
    ensures scene.inLastLevel || score < LastLevelScore ==> r == scene
    ensures r.cinematicActive ==> scene.cinematicActive
    ensures r.state == scene.state
  {
    if !scene.inLastLevel && score >= LastLevelScore then
      scene.(inLastLevel := true, lastLevelChaos := true, cinematicActive := false)
    else
      scene
  }

  /** Everything a running frame does before the collision check, in the
      loop's order: speed up, scroll and clean up, spawn, player physics,
      score threshold, cinematic, score. */
  function Advance(g: Game, dt: real, now: real, clock: real, d: Draws): (r: Game)
    ensures r == g.(player := r.player, speed := r.speed, lane := r.lane,
                    spawnElapsed := r.spawnElapsed, scene := r.scene, score := r.score)
    ensures r.score == g.score + dt / 100.0
    ensures r.player == Fall(g.player, dt)
    ensures !g.scene.cinematicActive ==>
              r.speed == Accelerate(g.speed, dt) && !r.scene.cinematicActive && r.scene.state == g.scene.state
    ensures var moved := Scroll(g.lane.obstacles, Travel(Accelerate(g.speed, dt), dt));
            |moved| <= |r.lane.obstacles| <= |moved| + 1 && r.lane.obstacles[..|moved|] == moved
    ensures var sp := Spawn(g.lane.(obstacles := Scroll(g.lane.obstacles, Travel(Accelerate(g.speed, dt), dt))),
                            g.spawnElapsed + dt, g.scene, d);
            r.lane == sp.lane && r.spawnElapsed == sp.elapsed
    ensures !g.scene.inLastLevel && g.score >= LastLevelScore ==>
              r.scene.inLastLevel && r.scene.lastLevelChaos && !r.scene.cinematicActive
    ensures Inv(g) ==> Inv(r)
  {
    var speed := Accelerate(g.speed, dt);
    var moved := g.lane.(obstacles := Scroll(g.lane.obstacles, Travel(speed, dt)));
    var spawned := Spawn(moved, g.spawnElapsed + dt, g.scene, d);
    var step := Update(LevelCheck(g.scene, g.score), speed, dt, now, clock);
    g.(player := Fall(g.player, dt), speed := step.speed, lane := spawned.lane,
       spawnElapsed := spawned.elapsed, scene := step.scene,
       score := g.score + dt / 1000.0 * 10.0)
  }

  /** One running frame over `dt` milliseconds: the frame's advance, then
      the collision check, skipped while the cinematic runs. */
  function RunningFrame(g: Game, dt: real, now: real, clock: real, d: Draws): (r: Game)
    requires g.state == Running
    ensures r.state == Running || r.state == GameOver
    ensures r.lastTime == g.lastTime
    ensures r.highScore >= g.highScore
    ensures Inv(g) ==> Inv(r)
    ensures r.player.height == g.player.height && r.player.ducking == g.player.ducking
    ensures !g.scene.cinematicActive ==> !r.scene.cinematicActive && r.scene.state == g.scene.state
    ensures !r.scene.cinematicActive ==>
              (r.state == GameOver <==> exists i :: 0 <= i < |r.lane.obstacles| && Hits(r.player, r.lane.obstacles[i]))
    ensures r.scene.cinematicActive ==> r.state == Running
    ensures !g.scene.inLastLevel && g.score >= LastLevelScore ==>
              r.scene.inLastLevel && r.scene.lastLevelChaos && !r.scene.cinematicActive
    ensures dt >= 0.0 ==> r.score >= g.score
    ensures r.score == g.score + dt / 100.0
    ensures r.player == Fall(g.player, dt)
    ensures !g.scene.cinematicActive ==> r.speed == Accelerate(g.speed, dt)
    ensures var moved := Scroll(g.lane.obstacles, Travel(Accelerate(g.speed, dt), dt));
            |moved| <= |r.lane.obstacles| <= |moved| + 1 && r.lane.obstacles[..|moved|] == moved
    ensures var sp := Spawn(g.lane.(obstacles := Scroll(g.lane.obstacles, Travel(Accelerate(g.speed, dt), dt))),
                            g.spawnElapsed + dt, g.scene, d);
            r.lane == sp.lane && r.spawnElapsed == sp.elapsed
    ensures |r.lane.obstacles| <= |g.lane.obstacles| + 1
  {
    var g1 := Advance(g, dt, now, clock, d);
    if !g1.scene.cinematicActive then CheckCollisions(g1).game else g1
  }

  /** The milliseconds a frame at `now` covers: none on the first frame,
      which only records its timestamp. */
  function FrameTime(g: Game, now: real): (dt: real)
    ensures g.lastTime == 0.0 ==> dt == 0.0
    ensures g.lastTime != 0.0 ==> g.lastTime + dt == now
  {
    if g.lastTime == 0.0 then 0.0 else now - g.lastTime
  }

  /** One animation frame at timestamp `now`; `clock` is `performance.now()`
      as read by the cinematic. The first frame measures no elapsed time.
      Outside a run only the timestamp is recorded. */
  function Tick(g: Game, now: real, clock: real, d: Draws): (r: Game)
    ensures g.state != Running ==> r == g.(lastTime := now)
    ensures r.lastTime == now
    ensures r.state == g.state || (g.state == Running && r.state == GameOver)
    ensures r.highScore >= g.highScore
    ensures Inv(g) ==> Inv(r)
    ensures !g.scene.cinematicActive ==> !r.scene.cinematicActive && r.scene.state == g.scene.state
    ensures r.player.height == g.player.height && r.player.ducking == g.player.ducking
    ensures |r.lane.obstacles| <= |g.lane.obstacles| + 1
    ensures g.state == Running && !r.scene.cinematicActive ==>
              (r.state == GameOver <==> exists i :: 0 <= i < |r.lane.obstacles| && Hits(r.player, r.lane.obstacles[i]))
    ensures g.state == Running && g.lastTime <= now ==> r.score >= g.score
    ensures g.state == Running ==> r.score == g.score + FrameTime(g, now) / 100.0
    ensures g.state == Running ==> r.player == Fall(g.player, FrameTime(g, now))
  {
    var last := if g.lastTime == 0.0 then now else g.lastTime;
    var g0 := g.(lastTime := now);
    if g.state == Running then RunningFrame(g0, now - last, now, clock, d) else g0
  }
}

=== FILE: reset_hitbox.dfy ===
/** The reset to the title screen as the original writes it leaves a player
    who was ducking at the duck height with the duck flag cleared. The next
    run starts with a standing player whose hitbox is 40px tall, and that
    player passes under air obstacles without ducking. */
module ResetHitbox {
  import opened World
  import opened Runner
  import opened Track
  import opened Collision
  import opened Game

  /** A run that ended while the player was ducking: the duck key's release
      is ignored outside a run, so the flag is still set. */
  function DuckedGameOver(): (g: Game)
    ensures g.state == GameOver && g.player.ducking && Inv(g)
  {
    Initial(0).(state := GameOver, player := InitialPlayer.(ducking := true, height := DuckHeight, y := GroundY - DuckHeight))
  }

  /** An air obstacle right over the player's column. */
  function AirOverPlayer(): (o: Obstacle)
    ensures o.kind == Air && o.y == AirY && o.h == AirHeight
  {
    NewObstacle(true, 40.0, "#ff9f43").(x := ScreenX)
  }

  /** As written: after restart and a new run the player is not ducking,
      yet its hitbox is the duck hitbox, and an air obstacle directly above
      does not touch it. */
  lemma ResetAsWrittenKeepsDuckHitbox()
    ensures var g := StartGame(ResetToTitleAsWritten(DuckedGameOver()), 0.0);
            && g.state == Running
            && !g.player.ducking && g.player.height == DuckHeight
            && Inv(g) && !Posture(g.player)
            && !Hits(g.player, AirOverPlayer())
  {
  }

  /** Corrected: after restart and a new run the player stands at full
      height, so the same air obstacle hits it unless it ducks. */
  lemma ResetRestoresStandingHitbox()
    ensures var g := StartGame(ResetToTitle(DuckedGameOver()), 0.0);
            && g.state == Running
            && !g.player.ducking && g.player.height == OriginalHeight
            && Inv(g) && Posture(g.player)
            && Hits(g.player, AirOverPlayer())
  {
  }
}

=== FILE: runner.dfy ===
/** The player figure: a fixed screen x, a vertical position and velocity,
    a double-jump counter and a duck flag that swaps the hitbox height.
    `y` is the top edge of the hitbox, so the feet sit at `y + height`. */
module Runner {
  import opened World

  const ScreenX: real := 120.0
  const Width: real := 40.0
  const OriginalHeight: real := 70.0
  const DuckHeight: real := 40.0
  /** px/sec^2 */
  const Gravity: real := 1400.0
  /** px/sec; negative is upwards */
  const JumpPower: real := -700.0
  const MaxJumps: nat := 2

  datatype Player = Player(y: real, height: real, vy: real, jumpsUsed: nat, ducking: bool)

  /** The player as the page loads: standing on the ground, at rest. */
  const InitialPlayer: Player := Player(GroundY - OriginalHeight, OriginalHeight, 0.0, 0, false)

  function Feet(p: Player): real {
    p.y + p.height
  }

  function Hitbox(p: Player): Rect {
    Rect(ScreenX, p.y, Width, p.height)
  }

  /** The hitbox height matches the duck flag exactly. The original keeps
      this only up to a reset to the title screen (see `Game.ResetToTitle`). */
  predicate Posture(p: Player) {
    p.height == (if p.ducking then DuckHeight else OriginalHeight)
  }

  /** What every step of the original keeps true of the player: the jump
      counter is within its cap, the feet are never below the ground line,
      the hitbox is one of the two presets, and a ducking player has the
      duck height. */
  predicate PlayerInv(p: Player) {
    && p.jumpsUsed <= MaxJumps
    && Feet(p) <= GroundY
    && (p.height == DuckHeight || p.height == OriginalHeight)
    && (p.ducking ==> p.height == DuckHeight)
  }

  /** isPlayerGrounded: the feet are within one pixel of the ground line,
      on either side. */
  function Grounded(p: Player): (r: bool)
    ensures r <==> GroundY - 1.0 < Feet(p) < GroundY + 1.0
  {
    Abs(Feet(p) - GroundY) < 1.0
  }

  /** Jump key while running: takes effect only while a jump is left. */
  function Jump(p: Player): (r: Player)
    ensures p.jumpsUsed < MaxJumps ==> r.vy == JumpPower && r.jumpsUsed == p.jumpsUsed + 1
    ensures p.jumpsUsed >= MaxJumps ==> r == p
    ensures p.jumpsUsed <= MaxJumps ==> r.jumpsUsed <= MaxJumps
    ensures r.y == p.y && r.height == p.height && r.ducking == p.ducking
  {
    if p.jumpsUsed < MaxJumps then p.(vy := JumpPower, jumpsUsed := p.jumpsUsed + 1) else p
  }

  /** Duck key while running: only a standing, grounded player ducks; the
      top edge moves down so the feet stay on the ground line. A jump in
      progress is not cancelled (`vy` and the jump counter are kept). */
  function Duck(p: Player): (r: Player)
    ensures r != p <==> !p.ducking && Grounded(p)
    ensures r != p ==> r.ducking && r.height == DuckHeight && Feet(r) == GroundY
    ensures r.vy == p.vy && r.jumpsUsed == p.jumpsUsed
    ensures Posture(p) ==> Posture(r)
  {
    if !p.ducking && Grounded(p) then
      p.(ducking := true, height := DuckHeight, y := GroundY - DuckHeight)
    else
      p
  }

  /** Duck key released while running: a ducking player stands up to the
      original height with the feet on the ground line. This happens even
      in mid-air (a jump may start while ducking), which snaps the figure
      down onto the ground. */
  function Stand(p: Player): (r: Player)
    ensures r != p <==> p.ducking
    ensures p.ducking ==> !r.ducking && r.height == OriginalHeight && Feet(r) == GroundY
    ensures r.vy == p.vy && r.jumpsUsed == p.jumpsUsed
    ensures Posture(p) ==> Posture(r)
  {
    if p.ducking then
      p.(ducking := false, height := OriginalHeight, y := GroundY - OriginalHeight)
    else
      p
  }

  /** Ducking then standing up returns a standing player on the ground to
      exactly where it was. */
  lemma DuckThenStand(p: Player)
    requires !p.ducking && p.height == OriginalHeight && Feet(p) == GroundY
    ensures Stand(Duck(p)) == p
  {
  }

  /** Standing up then ducking again returns a ducking player on the ground
      to exactly where it was. */
  lemma StandThenDuck(p: Player)
    requires p.ducking && p.height == DuckHeight && Feet(p) == GroundY
    ensures Duck(Stand(p)) == p
  {
  }

  /** One frame of vertical physics over `dt` milliseconds: gravity, then
      the ground clamp that lands the player and restores both jumps. */
  function Fall(p: Player, dt: real): (r: Player)
    ensures var y1 := p.y + (p.vy + Gravity * dt / 1000.0) * dt / 1000.0;
            && (y1 + p.height >= GroundY <==> Feet(r) == GroundY)
            && (Feet(r) < GroundY ==> r.y == y1)
    ensures Feet(r) <= GroundY
    ensures Feet(r) == GroundY ==> r.vy == 0.0 && r.jumpsUsed == 0
    ensures Feet(r) < GroundY ==> r.jumpsUsed == p.jumpsUsed && r.vy == p.vy + Gravity * dt / 1000.0
    ensures r.height == p.height && r.ducking == p.ducking
    ensures PlayerInv(p) ==> PlayerInv(r)
    ensures Posture(p) ==> Posture(r)
  {
    var vy := p.vy + Gravity * dt / 1000.0;
    var y := p.y + vy * dt / 1000.0;
    if y + p.height >= GroundY then
      p.(y := GroundY - p.height, vy := 0.0, jumpsUsed := 0)
    else
      p.(y := y, vy := vy)
  }

  /** Starting from the ground with both jumps available, the first two
      jump presses take effect and the third changes nothing. */
  lemma DoubleJumpScenario()
    ensures var p0 := InitialPlayer;
            var p1 := Jump(p0);
            var p2 := Jump(p1);
            && p1.vy == JumpPower && p1.jumpsUsed == 1
            && p2.vy == JumpPower && p2.jumpsUsed == 2
            && Jump(p2) == p2
  {
  }
}

=== FILE: session.dfy ===
/** A session: the game driven by an arbitrary interleaving of key presses,
    key releases and animation frames, and the facts that hold across any
    such interleaving. */
module Session {
  import opened Runner
  import opened Cinematic
  import opened Game

  datatype Event =
    | Press(key: Key, repeat: bool, clock: real)
    | Release(key: Key)
    | Animate(now: real, clock: real, draws: Draws)

  /** The game-state moves any single event may make. */
  predicate Allowed(from: GameState, to: GameState) {
    || to == from
    || to == Waiting
    || to == Win
    || (from == Waiting && to == Running)
    || (from == Running && to == GameOver)
  }

  /** One event, dispatched as the page's listeners do. `mode` selects the
      reset behind quit and restart; `AsWritten` is the original. */
  function Apply(g: Game, e: Event, mode: ResetMode): (r: Game)
    ensures Allowed(g.state, r.state)
    ensures r.highScore >= g.highScore
    ensures Inv(g) ==> Inv(r)
    ensures Posture(g.player) && (mode == Corrected || !e.Press? || !(e.key == KeyQ || e.key == KeyR)) ==>
              Posture(r.player)
  {
    match e
    case Press(key, repeat, clock) => KeyDown(g, key, repeat, clock, mode)
    case Release(key) => KeyUp(g, key)
    case Animate(now, clock, draws) => Tick(g, now, clock, draws)
  }

  /** A whole session: the events applied in order. Whatever they are, the
      high score never decreases and a game that satisfies the invariant
      keeps it: at most two jumps between landings, feet never below the
      ground line, a duck-height hitbox while ducking, speed within its
      bounds, all obstacles on screen. With the corrected reset the hitbox
      height also keeps matching the duck flag. */
  function Play(g: Game, events: seq<Event>, mode: ResetMode): (r: Game)
    ensures r.highScore >= g.highScore
    ensures Inv(g) ==> Inv(r)
    ensures mode == Corrected && Posture(g.player) ==> Posture(r.player)
    decreases |events|
  {
    if |events| == 0 then g else Play(Apply(g, events[0], mode), events[1..], mode)
  }

  /** Nothing a session can do starts the chaser cinematic: with the
      cinematic idle, it stays idle and inactive through any events, the
      score threshold included. */
  lemma {:induction false} CinematicNeverStarts(g: Game, events: seq<Event>, mode: ResetMode)
    requires !g.scene.cinematicActive && g.scene.state == Idle
    ensures !Play(g, events, mode).scene.cinematicActive && Play(g, events, mode).scene.state == Idle
    decreases |events|
  {
    if |events| > 0 {
      var g1 := Apply(g, events[0], mode);
      assert !g1.scene.cinematicActive && g1.scene.state == Idle;
      CinematicNeverStarts(g1, events[1..], mode);
    }
  }

  /** From the page load, with either reset, the whole session keeps the
      invariant and the high score, and the cinematic never runs; with the
      corrected reset the hitbox height also keeps matching the duck flag. */
  lemma FromPageLoad(storedHighScore: int, events: seq<Event>, mode: ResetMode)
    ensures var g := Play(Initial(storedHighScore), events, mode);
            && Inv(g) && g.highScore >= storedHighScore
            && g.scene.state == Idle && !g.scene.cinematicActive
            && (mode == Corrected ==> Posture(g.player))
  {
    CinematicNeverStarts(Initial(storedHighScore), events, mode);
  }
}

=== FILE: track.dfy ===
/** Obstacles: their shapes, the two spawners (normal mode with a minimum
    spacing, chaos mode without), the leftward scroll and the off-screen
    cleanup. */
module Track {
  import opened World

  /** One draw of `Math.random()`: a real in [0, 1). */
  type Unit = r: real | 0.0 <= r < 1.0

  datatype Kind = Ground | Air

  datatype Obstacle = Obstacle(x: real, y: real, w: real, h: real, kind: Kind, color: string)

  /** The active obstacles together with the screen x of the last one
      spawned. */
  datatype Lane = Lane(obstacles: seq<Obstacle>, lastObstacleX: real)

  /** New obstacles appear 20px beyond the right edge of the canvas. */
  const SpawnX: real := CanvasWidth + 20.0
  /** In normal mode a new obstacle keeps at least this gap to the rightmost one. */
  const NormalMinGap: real := 220.0
  /** "No obstacle" sentinel for the rightmost and last-spawned x. */
  const NoObstacleX: real := -9999.0
  /** An obstacle is dropped once its right edge is at or left of this x. */
  const CleanupEdge: real := -200.0

  const AirY: real := GroundY - 80.0
  const AirHeight: real := 36.0
  const GroundHeight: real := 48.0

  const EmptyLane: Lane := Lane([], NoObstacleX)

  function Bounds(o: Obstacle): Rect {
    Rect(o.x, o.y, o.w, o.h)
  }

  /** An obstacle at the spawn point: air obstacles float at a fixed height,
      ground obstacles stand on the ground line. */
  function NewObstacle(isAir: bool, w: real, airColor: string): (o: Obstacle)
    ensures o.x == SpawnX && o.w == w
    ensures o.kind == Air <==> isAir
    ensures isAir ==> o.y == AirY && o.h == AirHeight && o.color == airColor
    ensures !isAir ==> o.y + o.h == GroundY && o.h == GroundHeight && o.color == "#fff"
  {
    var h := if isAir then AirHeight else GroundHeight;
    var y := if isAir then AirY else GroundY - h;
    Obstacle(SpawnX, y, w, h, if isAir then Air else Ground, if isAir then airColor else "#fff")
  }

  /** `base + Math.floor(draw * span)` for a draw in [0, 1). */
  function DrawWidth(base: int, span: nat, draw: Unit): (w: real)
    requires span > 0
    ensures base as real <= w <= (base + span - 1) as real
  {
    DrawFloorBounds(draw, span);
    ((draw * span as real).Floor + base) as real
  }

  /** A draw in [0, 1) scaled by `span` floors to one of 0 .. span - 1. */
  lemma DrawFloorBounds(draw: Unit, span: nat)
    requires span > 0
    ensures 0 <= (draw * span as real).Floor < span
  {
    var scaled := draw * span as real;
    ScaleBounds(draw, span as real);
    FloorBounds(scaled, span);
  }

  lemma ScaleBounds(draw: Unit, span: real)
    requires span > 0.0
    ensures 0.0 <= draw * span < span
  {
    assert span - draw * span == (1.0 - draw) * span;
  }

  lemma FloorBounds(v: real, n: int)
    requires 0.0 <= v < n as real
    ensures 0 <= v.Floor < n
  {
  }

  /** The obstacle normal mode proposes: air with probability 0.45, width
      28..55. */
  function NormalObstacle(kindDraw: Unit, widthDraw: Unit): (o: Obstacle)
    ensures o.x == SpawnX
    ensures o.kind == Air <==> kindDraw < 0.45
    ensures 28.0 <= o.w <= 55.0
  {
    NewObstacle(kindDraw < 0.45, DrawWidth(28, 28, widthDraw), "#ff9f43")
  }

  /** The obstacle chaos mode spawns: air with probability 0.55, width
      26..61. */
  function ChaosObstacle(kindDraw: Unit, widthDraw: Unit): (o: Obstacle)
    ensures o.x == SpawnX
    ensures o.kind == Air <==> kindDraw < 0.55
    ensures 26.0 <= o.w <= 61.0
  {
    NewObstacle(kindDraw < 0.55, DrawWidth(26, 36, widthDraw), "#ff6b81")
  }

  /** The largest x among the obstacles, scanning them in order, starting
      from the sentinel. */
  function Rightmost(obs: seq<Obstacle>): (r: real)
    ensures r >= NoObstacleX
    ensures forall i :: 0 <= i < |obs| ==> obs[i].x <= r
    ensures r == NoObstacleX || exists i :: 0 <= i < |obs| && obs[i].x == r
  {
    if |obs| == 0 then NoObstacleX
    else
      var r := Rightmost(obs[..|obs| - 1]);
      if obs[|obs| - 1].x > r then obs[|obs| - 1].x else r
  }

  /** Normal-mode spawn: the candidate is dropped when the rightmost
      obstacle is on screen (x > 0) and closer than `NormalMinGap` to the
      spawn point; otherwise it is appended and remembered as the last
      spawned. */
  function SpawnNormal(lane: Lane, kindDraw: Unit, widthDraw: Unit): (r: Lane)
    ensures r == lane || r == Lane(lane.obstacles + [NormalObstacle(kindDraw, widthDraw)], SpawnX)
    ensures r == lane <==> exists i :: 0 <= i < |lane.obstacles| && lane.obstacles[i].x > SpawnX - NormalMinGap
    ensures r != lane ==> forall i :: 0 <= i < |lane.obstacles| ==> SpawnX - lane.obstacles[i].x >= NormalMinGap
  {
    var candidate := NormalObstacle(kindDraw, widthDraw);
    var rightmostX := Rightmost(lane.obstacles);
    if rightmostX > 0.0 && SpawnX - rightmostX < NormalMinGap then
      lane
    else
      Lane(lane.obstacles + [candidate], SpawnX)
  }

  /** Chaos-mode spawn: always appends, with no spacing rule. */
  function SpawnChaos(lane: Lane, kindDraw: Unit, widthDraw: Unit): (r: Lane)
    ensures |r.obstacles| == |lane.obstacles| + 1
    ensures r.obstacles[..|lane.obstacles|] == lane.obstacles
    ensures r.obstacles[|lane.obstacles|].x == SpawnX && r.lastObstacleX == SpawnX
  {
    Lane(lane.obstacles + [ChaosObstacle(kindDraw, widthDraw)], SpawnX)
  }

  /** A ground obstacle at x = 920 is spawned when the rightmost obstacle is
      at x = 700: a gap of exactly 220 is enough. */
  lemma BoundaryGapSpawns(o: Obstacle, kindDraw: Unit, widthDraw: Unit)
    requires o.x == 700.0
    ensures |SpawnNormal(Lane([o], 0.0), kindDraw, widthDraw).obstacles| == 2
  {
  }

  /** Scroll every obstacle `d` pixels to the left; nothing else about an
      obstacle changes. */
  function Move(obs: seq<Obstacle>, d: real): (r: seq<Obstacle>)
    ensures |r| == |obs|
    ensures forall i :: 0 <= i < |obs| ==> r[i].x == obs[i].x - d && r[i].(x := obs[i].x) == obs[i]
  {
    if |obs| == 0 then []
    else [obs[0].(x := obs[0].x - d)] + Move(obs[1..], d)
  }

  predicate OnScreen(o: Obstacle) {
    o.x + o.w > CleanupEdge
  }

  /** Drop the obstacles whose right edge has gone past the cleanup edge,
      keeping the others in order. */
  function Cleanup(obs: seq<Obstacle>): (r: seq<Obstacle>)
    ensures |r| <= |obs|
    ensures forall o :: o in r <==> o in obs && OnScreen(o)
    ensures (forall i :: 0 <= i < |obs| ==> OnScreen(obs[i])) ==> r == obs
  {
    if |obs| == 0 then []
    else if OnScreen(obs[0]) then [obs[0]] + Cleanup(obs[1..])
    else Cleanup(obs[1..])
  }

  /** The scroll-and-clean step of a running frame: every obstacle moves
      `d` pixels left, then those gone past the cleanup edge are dropped.
      Exactly the moved obstacles still on screen remain. */
  function Scroll(obs: seq<Obstacle>, d: real): (r: seq<Obstacle>)
    ensures |r| <= |obs|
    ensures forall o :: o in r <==> OnScreen(o) && exists i :: 0 <= i < |obs| && o == obs[i].(x := obs[i].x - d)
  {
    var moved := Move(obs, d);
    assert forall o :: o in moved <==> exists i :: 0 <= i < |obs| && o == obs[i].(x := obs[i].x - d) by {
      forall o ensures o in moved <==> exists i :: 0 <= i < |obs| && o == obs[i].(x := obs[i].x - d) {
        if o in moved {
          var i :| 0 <= i < |moved| && moved[i] == o;
          assert o == obs[i].(x := obs[i].x - d);
        }
        if exists i :: 0 <= i < |obs| && o == obs[i].(x := obs[i].x - d) {
          var i :| 0 <= i < |obs| && o == obs[i].(x := obs[i].x - d);
          assert moved[i] == o;
        }
      }
    }
    Cleanup(moved)
  }

  /** Cleanup works obstacle by obstacle and keeps the order: cleaning a
      concatenation is concatenating the cleaned parts. Together with the
      contract of `Cleanup` on a single obstacle, this pins the result down
      as the in-order list of on-screen obstacles, duplicates included. */
  lemma {:induction false} CleanupAppend(a: seq<Obstacle>, b: seq<Obstacle>)
    ensures Cleanup(a + b) == Cleanup(a) + Cleanup(b)
    decreases |a|
  {
    if |a| > 0 {
      assert (a + b)[1..] == a[1..] + b;
      CleanupAppend(a[1..], b);
    } else {
      assert a + b == b;
    }
  }
}

=== FILE: world.dfy ===
/** The fixed geometry of the runner's screen: the canvas, the ground line,
    the bounds on world speed, axis-aligned rectangles and the clamp helper.
    Every coordinate is a `real`; the model makes no claim about the
    floating-point rounding of the original arithmetic. */
module World {

  /** Width of the canvas in pixels; obstacles spawn just beyond it. */
  const CanvasWidth: real := 900.0

  /** Screen y of the running surface; y grows downwards. */
  const GroundY: real := 320.0

  /** World speed in px/sec starts at `BaseSpeed` and never leaves
      [BaseSpeed, MaxSpeed]. */
  const BaseSpeed: real := 280.0
  const MaxSpeed: real := 1400.0

  predicate SpeedInRange(speed: real) {
    BaseSpeed <= speed <= MaxSpeed
  }

  function Abs(v: real): real {
    if v < 0.0 then -v else v
  }

  function Max(a: real, b: real): real {
    if a >= b then a else b
  }

  function Min(a: real, b: real): real {
    if a <= b then a else b
  }

  /** `Math.max(a, Math.min(b, v))`: pins `v` into [a, b]. When the bounds
      are inverted the lower bound wins, as with the original expression. */
  function Clamp(v: real, a: real, b: real): (r: real)
    ensures a <= b ==> a <= r <= b
    ensures a <= v <= b ==> r == v
    ensures v < a ==> r == a
    ensures a <= b < v ==> r == b
    ensures b < a ==> r == a
  {
    Max(a, Min(b, v))
  }

  lemma ClampIdempotent(v: real, a: real, b: real)
    ensures Clamp(Clamp(v, a, b), a, b) == Clamp(v, a, b)
  {
  }

  /** An axis-aligned rectangle given by its top-left corner and size. */
  datatype Rect = Rect(x: real, y: real, w: real, h: real)

  /** Two rectangles overlap unless one lies entirely to one side of the
      other. For rectangles of positive size: the horizontal extents and
      the vertical extents both intersect in more than a point. */
  function RectsOverlap(a: Rect, b: Rect): (r: bool)
    ensures a.w > 0.0 && a.h > 0.0 && b.w > 0.0 && b.h > 0.0 ==>
              (r <==> Max(a.x, b.x) < Min(a.x + a.w, b.x + b.w) && Max(a.y, b.y) < Min(a.y + a.h, b.y + b.h))
  {
    !(a.x + a.w <= b.x || b.x + b.w <= a.x || a.y + a.h <= b.y || b.y + b.h <= a.y)
  }

  /** The point (px, py) lies strictly inside `r`. */
  predicate Inside(r: Rect, px: real, py: real) {
    r.x < px < r.x + r.w && r.y < py < r.y + r.h
  }

  lemma OverlapSymmetric(a: Rect, b: Rect)
    ensures RectsOverlap(a, b) == RectsOverlap(b, a)
  {
  }

  /** Rectangles that touch along a vertical or horizontal edge do not
      overlap. */
  lemma TouchingEdgesDoNotOverlap(a: Rect, b: Rect)
    requires a.x + a.w == b.x || a.y + a.h == b.y
    ensures !RectsOverlap(a, b)
  {
  }

  /** Reference meaning of the overlap test: for rectangles of positive
      size, they overlap exactly when some point lies strictly inside
      both. */
  lemma OverlapIffCommonPoint(a: Rect, b: Rect)
    requires a.w > 0.0 && a.h > 0.0 && b.w > 0.0 && b.h > 0.0
    ensures RectsOverlap(a, b) <==> exists px, py :: Inside(a, px, py) && Inside(b, px, py)
  {
    if RectsOverlap(a, b) {
      var px := (Max(a.x, b.x) + Min(a.x + a.w, b.x + b.w)) / 2.0;
      var py := (Max(a.y, b.y) + Min(a.y + a.h, b.y + b.h)) / 2.0;
      assert Inside(a, px, py) && Inside(b, px, py);
    }
  }
}
